=== FILE: README.md ===
# Debugger DOM mirror, modelled in Dafny

This project models the mirroring layer of NativeScript's debugger
(`tns-core-modules/debugger/dom-node.ts`). The layer turns a live view into a
flat, serialisable `DOMNode`, and it forwards tree and attribute changes to an
optional `Inspector`. The model is purely functional:

- A live view is an immutable `View` value. It holds the things the host
  framework reports: its `_domId`, its type name, its set properties, its
  computed CSS values and its live children.
- Property values form a closed variant: `Undefined | Null | Str | Num | Bool | ColorV | ObjectV`.
- The process-wide inspector is an `Option<Inspector>` parameter.
- Every notification method returns the sequence of inspector calls it makes.

Modules:

- `Wrappers` (`wrappers.dfy`): `Option`.
- `Seqs` (`seqs.dfy`): order-preserving `Filter`. It is shared by the attribute
  projection and the computed-property listing.
- `NumberText`, `Values` (`values.dfy`): the decimal text of integral numbers
  and a parser for it. Also the two string conversions the source uses:
  - `ConcatEmpty` is `value + ""`.
  - `ValueToString` is the protocol codec.
- `Projection` (`projection.dfy`): the property blacklist, the three filter
  rules of `getAttributes` and the flattened attribute list.
- `DomNodes` (`dom_node.dfy`): node construction, `ensureDomNode` over a
  cache of materialised mirrors, `children`, `print` and
  `getComputedProperties`. It also defines two predicates: `WellFormed` (what
  every snapshot satisfies) and `Mirrors` (a snapshot follows its view tree).
- `Notifications` (`notifications.dfy`): the previous-sibling scan of
  `onChildAdded` and the four notification paths.

The host caches a view's mirror the first time it is asked for. A mirror's
attribute list is fixed when the mirror is built (`dom-node.ts:49, 57`), and
nothing refreshes it: `attributeModified` only notifies the inspector. The
model therefore carries a `MirrorCache` from view id to the attribute list
fixed at materialisation. Every other field of a mirror depends only on the
view's id and type name, which never change.

Three behaviours of the code are worth stating plainly:

- Attributes are rendered with `value + ""` (`dom-node.ts:107`), not with
  `valueToString`. So a null property is listed as `"null"`, while a change
  to null is reported as `""` (`NullReportedTwoWays`).
- Every non-null object is dropped from the attribute list
  (`dom-node.ts:96`), colours and lengths included.
- Attribute names repeat when the host reports a name twice.
  `AttributeNamesAreDistinct` assumes distinct host names.

## Model

| member | source | states |
|---|---|---|
| Seqs.Filter | tns-core-modules/debugger/dom-node.ts:88-105 | the kept elements all satisfy the rule; every input element that satisfies it is kept; nothing else appears |
| Seqs.FilterAppend | tns-core-modules/debugger/dom-node.ts:88-105 | filtering keeps relative order: the filter of a concatenation is the concatenation of the filters |
| Seqs.FilterCount | tns-core-modules/debugger/dom-node.ts:88-105 | a kept element occurs exactly as often as in the input; a rejected one never occurs |
| NumberText.IntTextRoundTrip | tns-core-modules/debugger/dom-node.ts:172 | the text of an integral number parses back to that number, so the text is faithful |
| NumberText.IntTextInjective | tns-core-modules/debugger/dom-node.ts:172 | distinct integral numbers never get the same text |
| Values.ConcatEmpty | tns-core-modules/debugger/dom-node.ts:107 | `value + ""` spells out "undefined" and "null", keeps a string as it is, gives "true" exactly for true and "false" exactly for false, and gives a safe integer a text that parses back to the number |
| Values.ValueToString | tns-core-modules/debugger/dom-node.ts:164-174 | undefined and null become ""; a colour goes through `Color.toString`; any other object goes through `PercentLength.convertToString`; every other value gets the same text as `value + ""` |
| Values.CodecAgreesWithConcatUnlessAbsent | tns-core-modules/debugger/dom-node.ts:164-174 | on non-object values, valueToString equals `value + ""` exactly when the value is neither null nor undefined; those two become "" |
| Values.FalsyConcatenations | tests/app/debugger/dom-node-tests.ts:41-54 | concatenation turns null into "null", undefined into "undefined", 0 into "0", "" into "" and false into "false" |
| Values.NumberTextRoundTrip | tns-core-modules/debugger/dom-node.ts:164-174 | a number's text reads back as the number under both conversions |
| Projection.Flatten | tns-core-modules/debugger/dom-node.ts:107 | each surviving pair becomes two entries: the name at index 2i and the concatenated text at index 2i+1 |
| Projection.Attributes | tns-core-modules/debugger/dom-node.ts:87-108 | the list has even length and at most two entries per property; no name in it starts with `_` or is on the blacklist |
| Projection.AttributesAreSurvivorsInOrder | tns-core-modules/debugger/dom-node.ts:87-108 | pair j of the list is the j-th surviving property in host order, with its value concatenated to "" |
| Projection.SurvivorIsListed | tns-core-modules/debugger/dom-node.ts:92-107 | every set property that passes all three rules appears as a (name, text) pair |
| Projection.ListedIsSurvivor | tns-core-modules/debugger/dom-node.ts:92-107 | every listed pair comes from a set property that passes all three rules |
| Projection.SurvivorMultiplicity | tns-core-modules/debugger/dom-node.ts:88-105 | a surviving property is listed as often as the host reports it, and a rejected one is never listed |
| Projection.ProjectionOfConcatenation | tns-core-modules/debugger/dom-node.ts:88-107 | properties reported later by the host are listed later: the projection of a concatenation is the concatenation of the projections |
| Projection.AttributeNamesAreDistinct | tns-core-modules/debugger/dom-node.ts:87-108 | when the host's property names are distinct, no two listed pairs share a name |
| DomNodes.NewNode | tns-core-modules/debugger/dom-node.ts:48-58 | nodeType is 9 iff the type name is "Frame" and 1 otherwise; nodeId is the view's _domId; nodeName and localName are the type name; nodeValue is ""; the attributes are the projection of the set properties |
| DomNodes.AttributesOf | tns-core-modules/debugger/dom-node.ts:49-57 | for a materialised view, the mirror's attribute list is exactly the cached one; for a view not yet materialised, it is the current projection of its set properties; either way it is clean |
| DomNodes.Ensure | tns-core-modules/debugger/dom-node.ts:51-58 | the mirror of a view carries the view's id and backing view; nodeType is 9 for "Frame" and 1 for any other type name; both names are the type name; nodeValue is ""; the attribute list is the cached one when there is one; for a view with no mirror yet, it is the newly constructed node |
| DomNodes.Materialize | tns-core-modules/debugger/dom-node.ts:57-63 | after materialising a view, the cache holds it; a newly materialised view's entry is the projection of its set properties at that moment; every earlier entry is kept unchanged and no other entry appears |
| DomNodes.EnsureIsIdempotent | tns-core-modules/debugger/dom-node.ts:63-64 | materialising twice changes nothing and yields the same mirror, even after the view's properties change |
| DomNodes.Children | tns-core-modules/debugger/dom-node.ts:60-69 | one mirror per live child, in live order, each backed by that child, carrying its _domId and its cached attribute list |
| DomNodes.Print | tns-core-modules/debugger/dom-node.ts:71-81 | the snapshot carries the node's identity, names, value and attribute list, and has one child entry per live child |
| DomNodes.PrintedChildren | tns-core-modules/debugger/dom-node.ts:78 | snapshot child i is the print of the mirror of live child i |
| DomNodes.PrintIsWellFormed | tns-core-modules/debugger/dom-node.ts:48-81 | at every depth of a printed tree: nodeType is 1 or 9, and 9 exactly for "Frame"; localName equals nodeName; nodeValue is ""; the attribute list is even and contains no private or blacklisted name |
| DomNodes.PrintMirrorsView | tns-core-modules/debugger/dom-node.ts:51-81 | the printed tree follows the view tree node for node: same ids and type names, the attribute list each mirror holds, and the same number of children at every level |
| DomNodes.CachedMirrorPrintsStaleAttributes | tns-core-modules/debugger/dom-node.ts:49-81 | a mirror materialised before a property write keeps printing the attribute list it was built with |
| DomNodes.ComputedProperties | tns-core-modules/debugger/dom-node.ts:137-147 | entry i is the i-th computed value whose name does not start with `_`, in host order, with its value put through valueToString |
| DomNodes.ComputedListsExactlyPublicEntries | tns-core-modules/debugger/dom-node.ts:137-147 | every public computed value is listed with its encoded text, and every listed entry is one of them |
| Notifications.PreviousSiblingId | tns-core-modules/debugger/dom-node.ts:114-123 | the scan returns the id of the child just before the first child carrying the inserted view's id, or 0 when that child is first |
| Notifications.OnChildAdded | tns-core-modules/debugger/dom-node.ts:111-127 | with an inspector: the inserted view is materialised, and exactly one childNodeInserted is made, carrying this node's id, the previous sibling's id and the snapshot of the inserted view's mirror; without one: nothing is made and the cache is unchanged |
| Notifications.OnChildRemoved | tns-core-modules/debugger/dom-node.ts:130-135 | with an inspector: exactly one childNodeRemoved, carrying this node's id and the removed node's id; without one: nothing |
| Notifications.OnAttributeModified | tns-core-modules/debugger/dom-node.ts:149-154 | with an inspector: exactly one attributeModified, carrying this node's id, the name and valueToString of the new value; without one: nothing |
| Notifications.OnAttributeRemoved | tns-core-modules/debugger/dom-node.ts:156-161 | with an inspector: exactly one attributeRemoved, carrying this node's id and the name; without one: nothing |
| Notifications.InsertionReportsPredecessor | tns-core-modules/debugger/dom-node.ts:114-126 | inserting a view with a fresh id at index k reports the child that was at index k-1, or 0 when k is 0 |
| Notifications.InsertionExamples | tests/app/debugger/dom-node-tests.ts:86-117 | inserting D at index 1 of [A, B, C] reports A; inserting into an empty parent reports 0 |
| Notifications.NullReportedTwoWays | tns-core-modules/debugger/dom-node.ts:96-174 | a null property is listed with the text "null" at construction, but a change to null is reported with the text "" |
| Notifications.RemovalNamesInsertedNode | tests/app/debugger/dom-node-tests.ts:119-145 | a removal reports the removed view's own id, the same id as the node snapshot sent when that view was inserted |
| Notifications.SetThenUnset | tests/app/debugger/dom-node-tests.ts:160-194 | setting a property and then unsetting it yields one attributeModified with the new value's text followed by one attributeRemoved, and nothing else; without an inspector, nothing |
| Notifications.ModifiedNumberReadsBack | tns-core-modules/debugger/dom-node.ts:149-154 | the text reported for a change to a safe-integer value parses back to the new number |

## Left out

- `getInspector` (`dom-node.ts:31-39`): the lookup of the global `__inspector` and its module-level caching are replaced by an explicit `Option<Inspector>` parameter.
- `toJSON` (`dom-node.ts:83-85`): JSON encoding is not modelled. The inserted node travels in `ChildNodeInserted` as its `Snapshot`, and the wire text is an encoding of that snapshot.
- `documentUpdated`: the source declares it on the inspector interface but never calls it, so no event models it.
- Host collaborators are inputs rather than models:
  - `getSetProperties` becomes `View.props`.
  - `getComputedCssValues` becomes `View.cssValues`.
  - `eachChild` becomes `View.children`.
- Notifications.OnChildAdded: `cache'` records only the inserted view's mirror. Printing the snapshot (`view.domNode.toJSON()`) also materialises every descendant of the inserted view, and those cache entries are not returned.
- DomNodes.Print: the host's `children` getter also materialises every child it visits. The cache entries this creates for descendants are not returned, so the model only records the cache update that `onChildAdded` makes for the inserted view.
- View identity (`child === view`) is modelled as equality of `_domId`, the host's stable per-view identifier.
- `onChildRemoved` reads `view.domNode`, which throws when the removed view was never materialised. The model takes the removed view's node as an input, so that failure is not modelled.
- `onChildAdded`'s `atIndex` argument is accepted and ignored, as in the source.
- `Color.toString` and `PercentLength.convertToString` are host formatters. They are passed in as the function fields of `Formatters` and are otherwise uninterpreted.
- Values.ConcatEmpty: numbers are the safe integers only, with magnitude at most 2^53 - 1 (`Values.SafeInteger`). For those, JavaScript's text is the exact decimal. Larger integers print as their shortest round-trip digits (`2**64 + ""` is "18446744073709552000"). Fractional numbers, NaN, the infinities and `-0` are also floating-point formatting. None of these are modelled.
- Function-, symbol- and bigint-typed property values are not modelled. Functions would survive the object filter in the source and be listed with their source text.
- Change detection, which decides whether a property write calls `attributeModified` or `attributeRemoved`, belongs to the host and is not modelled.

=== FILE: dom_node.dfy ===
/** The mirror node of one live view, its recursive snapshot, and the
    computed-style listing the inspector can ask for. */
module DomNodes {
  import opened Seqs
  import opened Values
  import opened Projection

  /** What the host framework exposes about a live view: its stable id, its
      declared type name, its set properties and computed CSS values (both
      in host order), and its children in live order. */
  datatype View = View(
    domId: int,
    typeName: string,
    props: seq<(string, Value)>,
    cssValues: seq<(string, Value)>,
    children: seq<View>)

  const ELEMENT_NODE_TYPE: int := 1
  const ROOT_NODE_TYPE: int := 9

  /** The mirror of `view`. Its children are not stored: they are read from
      the backing view whenever they are asked for. */
  datatype DomNode = DomNode(
    nodeId: int,
    nodeType: int,
    nodeName: string,
    localName: string,
    nodeValue: string,
    attributes: seq<string>,
    view: View)

  /** The serialisable tree a mirror node prints to. */
  datatype Snapshot = Snapshot(
    nodeId: int,
    nodeType: int,
    nodeName: string,
    localName: string,
    nodeValue: string,
    children: seq<Snapshot>,
    attributes: seq<string>)

  /** One entry of the computed-style listing. */
  datatype CssProperty = CssProperty(name: string, value: string)

  /** Builds the mirror of a view: a frame is the document root, anything
      else an element; identity and names come from the view, attributes
      from its set properties. */
  function NewNode(v: View): (n: DomNode)
    ensures n.nodeType == ROOT_NODE_TYPE <==> v.typeName == "Frame"
    ensures n.nodeType == ELEMENT_NODE_TYPE <==> v.typeName != "Frame"
    ensures n.nodeId == v.domId
    ensures n.nodeName == v.typeName && n.localName == v.typeName
    ensures n.nodeValue == ""
    ensures n.attributes == Attributes(v.props)
    ensures n.view == v
  {
    DomNode(
      nodeId := v.domId,
      nodeType := if v.typeName == "Frame" then ROOT_NODE_TYPE else ELEMENT_NODE_TYPE,
      nodeName := v.typeName,
      localName := v.typeName,
      nodeValue := "",
      attributes := Attributes(v.props),
      view := v)
  }

  /** The attribute lists of the views whose mirror the host has already
      materialised, keyed by view id. A mirror's attribute list is fixed when
      it is built and nothing refreshes it; every other field of a mirror is
      a function of the view's id and type name, which never change. */
  type MirrorCache = map<int, seq<string>>

  predicate ValidCache(cache: MirrorCache) {
    forall id :: id in cache ==> CleanAttributes(cache[id])
  }

  /** The attribute list a view's mirror carries: the one cached when it was
      materialised, or a fresh projection when it is built now. */
  function AttributesOf(cache: MirrorCache, v: View): (attrs: seq<string>)
    requires ValidCache(cache)
    ensures CleanAttributes(attrs)
    ensures v.domId in cache ==> attrs == cache[v.domId]
    ensures v.domId !in cache ==> attrs == Attributes(v.props)
  {
    if v.domId in cache then cache[v.domId] else Attributes(v.props)
  }

  /** The mirror `ensureDomNode` yields for a view: the cached one if there
      is one, otherwise a new one. */
  function Ensure(cache: MirrorCache, v: View): (n: DomNode)
    requires ValidCache(cache)
    ensures n.nodeId == v.domId && n.view == v
    ensures n.nodeType == ROOT_NODE_TYPE <==> v.typeName == "Frame"
    ensures n.nodeType == ELEMENT_NODE_TYPE <==> v.typeName != "Frame"
    ensures n.nodeName == v.typeName && n.localName == v.typeName && n.nodeValue == ""
    ensures n.attributes == AttributesOf(cache, v)
    ensures v.domId !in cache ==> n == NewNode(v)
  {
    NewNode(v).(attributes := AttributesOf(cache, v))
  }

  /** The cache after `ensureDomNode` has run on `v`. */
  function Materialize(cache: MirrorCache, v: View): (cache': MirrorCache)
    requires ValidCache(cache)
    ensures ValidCache(cache')
    ensures v.domId in cache'
    ensures v.domId !in cache ==> cache'[v.domId] == Attributes(v.props)
    ensures forall id :: id in cache ==> id in cache' && cache'[id] == cache[id]
    ensures forall id :: id in cache' && id != v.domId ==> id in cache
  {
    if v.domId in cache then cache else cache[v.domId := Attributes(v.props)]
  }

  /** Materialisation is idempotent: once a view has a mirror, asking again
      changes nothing and yields the same mirror, whatever its properties
      have become since. */
  lemma EnsureIsIdempotent(cache: MirrorCache, v: View, later: seq<(string, Value)>)
    requires ValidCache(cache)
    ensures Materialize(Materialize(cache, v), v) == Materialize(cache, v)
    ensures Ensure(Materialize(cache, v), v) == Ensure(cache, v)
    ensures Ensure(Materialize(cache, v), v.(props := later)).attributes == Ensure(cache, v).attributes
  {
  }

  /** The mirrors of the backing view's live children, in live order. */
  function Children(cache: MirrorCache, n: DomNode): (kids: seq<DomNode>)
    requires ValidCache(cache)
    ensures |kids| == |n.view.children|
    ensures forall i :: 0 <= i < |kids| ==>
              kids[i].view == n.view.children[i] && kids[i].nodeId == n.view.children[i].domId
              && kids[i].attributes == AttributesOf(cache, n.view.children[i])
  {
    seq(|n.view.children|, i requires 0 <= i < |n.view.children| => Ensure(cache, n.view.children[i]))
  }

  /** The snapshot of a node and, recursively, of its live descendants. */
  function Print(cache: MirrorCache, n: DomNode): (s: Snapshot)
    requires ValidCache(cache)
    ensures s.nodeId == n.nodeId && s.nodeType == n.nodeType
    ensures s.nodeName == n.nodeName && s.localName == n.localName && s.nodeValue == n.nodeValue
    ensures s.attributes == n.attributes
    ensures |s.children| == |n.view.children|
    decreases n.view
  {
    var kids := Children(cache, n);
    Snapshot(
      nodeId := n.nodeId,
      nodeType := n.nodeType,
      nodeName := n.nodeName,
      localName := n.localName,
      nodeValue := n.nodeValue,
      children := seq(|kids|, i requires 0 <= i < |kids| => Print(cache, kids[i])),
      attributes := n.attributes)
  }

  /** The snapshot's children are the snapshots of the live children's
      mirrors, in live order. */
  lemma PrintedChildren(cache: MirrorCache, n: DomNode)
    requires ValidCache(cache)
    ensures forall i :: 0 <= i < |n.view.children| ==>
              Print(cache, n).children[i] == Print(cache, Ensure(cache, n.view.children[i]))
  {
  }

  /** What every snapshot on the wire satisfies, at every depth. */
  predicate WellFormed(s: Snapshot) {
    && (s.nodeType == ROOT_NODE_TYPE || s.nodeType == ELEMENT_NODE_TYPE)
    && (s.nodeType == ROOT_NODE_TYPE <==> s.nodeName == "Frame")
    && s.localName == s.nodeName
    && s.nodeValue == ""
    && CleanAttributes(s.attributes)
    && (forall i :: 0 <= i < |s.children| ==> WellFormed(s.children[i]))
  }

  /** A snapshot that follows the shape of a view tree node for node, each
      node carrying the attribute list its mirror holds. */
  predicate Mirrors(s: Snapshot, v: View, cache: MirrorCache)
    requires ValidCache(cache)
  {
    && s.nodeId == v.domId
    && s.nodeName == v.typeName
    && s.attributes == AttributesOf(cache, v)
    && |s.children| == |v.children|
    && (forall i :: 0 <= i < |v.children| ==> Mirrors(s.children[i], v.children[i], cache))
  }

  lemma {:induction false} PrintIsWellFormed(cache: MirrorCache, v: View)
    requires ValidCache(cache)
    ensures WellFormed(Print(cache, Ensure(cache, v)))
    decreases v
  {
    var s := Print(cache, Ensure(cache, v));
    forall i | 0 <= i < |s.children|
      ensures WellFormed(s.children[i])
    {
      PrintedChildren(cache, Ensure(cache, v));
      PrintIsWellFormed(cache, v.children[i]);
    }
  }

  lemma {:induction false} PrintMirrorsView(cache: MirrorCache, v: View)
    requires ValidCache(cache)
    ensures Mirrors(Print(cache, Ensure(cache, v)), v, cache)
    decreases v
  {
    var s := Print(cache, Ensure(cache, v));
    forall i | 0 <= i < |v.children|
      ensures Mirrors(s.children[i], v.children[i], cache)
    {
      PrintedChildren(cache, Ensure(cache, v));
      PrintMirrorsView(cache, v.children[i]);
    }
  }

  /** A mirror materialised before a property write keeps printing the
      attribute list it was built with. */
  lemma CachedMirrorPrintsStaleAttributes(cache: MirrorCache, v: View, later: seq<(string, Value)>)
    requires ValidCache(cache)
    ensures Print(Materialize(cache, v), Ensure(Materialize(cache, v), v.(props := later))).attributes
              == AttributesOf(cache, v)
  {
  }

  /** A computed-style entry whose name is not framework-private. */
  predicate IsPublicEntry(p: (string, Value)) {
    !IsInternalName(p.0)
  }

  /** The computed-style listing: entries with framework-private names are
      dropped, the rest keep their host order and have their values encoded. */
  function ComputedProperties(fmt: Formatters, n: DomNode): (r: seq<CssProperty>)
    ensures |r| == |Filter(n.view.cssValues, IsPublicEntry)|
    ensures forall i :: 0 <= i < |r| ==> !IsInternalName(r[i].name)
    ensures forall i :: 0 <= i < |r| ==>
              r[i].name == Filter(n.view.cssValues, IsPublicEntry)[i].0
              && r[i].value == ValueToString(fmt, Filter(n.view.cssValues, IsPublicEntry)[i].1)
  {
    var kept := Filter(n.view.cssValues, IsPublicEntry);
    seq(|kept|, i requires 0 <= i < |kept| => CssProperty(kept[i].0, ValueToString(fmt, kept[i].1)))
  }

  /** Both directions of the listing: every public computed value is
      reported with its encoded text, and every reported entry is one. */
  lemma ComputedListsExactlyPublicEntries(fmt: Formatters, n: DomNode)
    ensures forall p :: p in n.view.cssValues && IsPublicEntry(p) ==>
              CssProperty(p.0, ValueToString(fmt, p.1)) in ComputedProperties(fmt, n)
    ensures forall e :: e in ComputedProperties(fmt, n) ==>
              exists p :: p in n.view.cssValues && IsPublicEntry(p) && e == CssProperty(p.0, ValueToString(fmt, p.1))
  {
    var kept := Filter(n.view.cssValues, IsPublicEntry);
    var r := ComputedProperties(fmt, n);
    forall p | p in n.view.cssValues && IsPublicEntry(p)
      ensures CssProperty(p.0, ValueToString(fmt, p.1)) in r
    {
      var j :| 0 <= j < |kept| && kept[j] == p;
      assert r[j] == CssProperty(p.0, ValueToString(fmt, p.1));
    }
    forall e | e in r
      ensures exists p :: p in n.view.cssValues && IsPublicEntry(p) && e == CssProperty(p.0, ValueToString(fmt, p.1))
    {
      var j :| 0 <= j < |r| && r[j] == e;
      assert kept[j] in kept;
    }
  }
}

=== FILE: notifications.dfy ===
/** Forwarding of tree and attribute mutations to the optional inspector.
    Each operation returns the calls it makes on the inspector, in order. */
module Notifications {
  import opened Wrappers
  import Seqs
  import NumberText
  import opened Values
  import Projection
  import opened DomNodes

  /** An attached inspector; its own behaviour is outside this layer. */
  datatype Inspector = Inspector

  /** The inspector calls this layer makes. The inserted node travels as its
      snapshot, of which the wire text is an encoding. */
  datatype Event =
    | ChildNodeInserted(parentId: int, lastId: int, node: Snapshot)
    | ChildNodeRemoved(parentId: int, nodeId: int)
    | AttributeModified(nodeId: int, attrName: string, attrValue: string)
    | AttributeRemoved(nodeId: int, attrName: string)

  /** Index of the first child carrying `id`, or the number of children when
      none does. */
  function Position(children: seq<View>, id: int): (k: nat)
    ensures k <= |children|
    ensures forall j :: 0 <= j < k ==> children[j].domId != id
    ensures k < |children| ==> children[k].domId == id
  {
    if children == [] then 0
    else if children[0].domId == id then 0
    else 1 + Position(children[1..], id)
  }

  /** The id reported as previous sibling: that of the child just before the
      first child carrying `id`, or 0 when there is none before it. A view
      that is not among the children gets the last child's id. */
  function PrecedingId(children: seq<View>, id: int): (lastId: int) {
    var k := Position(children, id);
    if k == 0 then 0 else children[k - 1].domId
  }

  /** Scans the children in live order, remembering the last one passed,
      and stops at the inserted view. */
  method PreviousSiblingId(children: seq<View>, inserted: View) returns (lastId: int)
    ensures var k := Position(children, inserted.domId);
            lastId == if k == 0 then 0 else children[k - 1].domId
  {
    var previous: Option<View> := None;
    var i := 0;
    while i < |children| && children[i].domId != inserted.domId
      invariant 0 <= i <= |children|
      invariant forall j :: 0 <= j < i ==> children[j].domId != inserted.domId
      invariant previous == if i == 0 then None else Some(children[i - 1])
    {
      previous := Some(children[i]);
      i := i + 1;
    }
    lastId := if previous.Some? then previous.value.domId else 0;
  }

  /** A child view was added under `self`, whose backing view already lists
      it. With an inspector attached, the inserted view's mirror is
      materialised and sent; the insertion index the host passes along is
      not consulted. Returns the calls made and the updated mirror cache. */
  method OnChildAdded(cache: MirrorCache, self: DomNode, inserted: View, atIndex: Option<int>, ins: Option<Inspector>)
    returns (events: seq<Event>, cache': MirrorCache)
    requires ValidCache(cache)
    ensures |events| == if ins.Some? then 1 else 0
    ensures ins.None? ==> cache' == cache
    ensures ins.Some? ==> cache' == Materialize(cache, inserted)
    ensures ins.Some? ==> events[0].ChildNodeInserted?
    ensures ins.Some? ==> events[0].parentId == self.nodeId
    ensures ins.Some? ==> events[0].lastId == PrecedingId(self.view.children, inserted.domId)
    ensures ins.Some? ==> events[0].node == Print(cache', Ensure(cache', inserted))
    ensures ins.Some? ==> events[0].node.nodeId == inserted.domId
  {
    events := [];
    cache' := cache;
    if ins.Some? {
      var lastId := PreviousSiblingId(self.view.children, inserted);
      cache' := Materialize(cache, inserted);
      events := [ChildNodeInserted(self.nodeId, lastId, Print(cache', Ensure(cache', inserted)))];
    }
  }

  /** A child was removed from under `self`; `removed` is the mirror the
      host cached for it when it was materialised. */
  function OnChildRemoved(self: DomNode, removed: DomNode, ins: Option<Inspector>): (events: seq<Event>)
    ensures |events| == if ins.Some? then 1 else 0
    ensures forall e :: e in events ==>
              e.ChildNodeRemoved? && e.parentId == self.nodeId && e.nodeId == removed.nodeId
  {
    if ins.Some? then [ChildNodeRemoved(self.nodeId, removed.nodeId)] else []
  }

  /** A property of the backing view was set to `value`. */
  function OnAttributeModified(fmt: Formatters, self: DomNode, name: string, value: Value, ins: Option<Inspector>)
    : (events: seq<Event>)
    ensures |events| == if ins.Some? then 1 else 0
    ensures forall e :: e in events ==>
              e.AttributeModified? && e.nodeId == self.nodeId && e.attrName == name
              && e.attrValue == ValueToString(fmt, value)
  {
    if ins.Some? then [AttributeModified(self.nodeId, name, ValueToString(fmt, value))] else []
  }

  /** A property of the backing view was reset to the host's unset marker. */
  function OnAttributeRemoved(self: DomNode, name: string, ins: Option<Inspector>): (events: seq<Event>)
    ensures |events| == if ins.Some? then 1 else 0
    ensures forall e :: e in events ==> e.AttributeRemoved? && e.nodeId == self.nodeId && e.attrName == name
  {
    if ins.Some? then [AttributeRemoved(self.nodeId, name)] else []
  }

  /** Inserting a view at index `k` of children that do not yet carry its id
      reports the child that was at index `k - 1`, or 0 at the front. */
  lemma {:induction false} InsertionReportsPredecessor(before: seq<View>, k: nat, inserted: View)
    requires k <= |before|
    requires forall j :: 0 <= j < |before| ==> before[j].domId != inserted.domId
    ensures PrecedingId(before[..k] + [inserted] + before[k..], inserted.domId)
              == if k == 0 then 0 else before[k - 1].domId
  {
    var after := before[..k] + [inserted] + before[k..];
    assert after[k] == inserted;
    assert forall j :: 0 <= j < k ==> after[j] == before[j];
  }

  /** With [A, B, C] under a parent, inserting D at index 1 reports A, and
      inserting into an empty parent reports 0. */
  lemma InsertionExamples(a: View, b: View, c: View, d: View)
    requires a.domId == 1 && b.domId == 2 && c.domId == 3 && d.domId == 4
    ensures PrecedingId([a, d, b, c], d.domId) == a.domId
    ensures PrecedingId([d], d.domId) == 0
  {
    InsertionReportsPredecessor([a, b, c], 1, d);
    var none: seq<View> := [];
    InsertionReportsPredecessor(none, 0, d);
    assert [a, b, c][..1] + [d] + [a, b, c][1..] == [a, d, b, c];
    assert none[..0] + [d] + none[0..] == [d];
  }

  /** The same falsy value is reported differently by the two conversions:
      an attribute list built while a property is null shows "null", the
      change notification for setting it to null carries "". */
  lemma NullReportedTwoWays(fmt: Formatters, self: DomNode, name: string)
    requires !Projection.IsInternalName(name) && name !in Projection.Blacklist
    ensures Projection.Attributes([(name, Null)]) == [name, "null"]
    ensures OnAttributeModified(fmt, self, name, Null, Some(Inspector))
              == [AttributeModified(self.nodeId, name, "")]
  {
    Projection.AttributesAreSurvivorsInOrder([(name, Null)]);
    assert Seqs.Filter([(name, Null)], Projection.Survives) == [(name, Null)];
  }

  /** A numeric property change reaches the inspector as text that reads
      back as the new number. */
  lemma ModifiedNumberReadsBack(fmt: Formatters, self: DomNode, name: string, n: SafeInteger)
    ensures var events := OnAttributeModified(fmt, self, name, Num(n), Some(Inspector));
            NumberText.ParseInt(events[0].attrValue) == Some(n)
  {
    NumberTextRoundTrip(fmt, n);
  }

  /** A removal names the same id as the node sent when the child was
      inserted: the removed view's own id, whatever the cache held then. */
  lemma RemovalNamesInsertedNode(cacheAtInsertion: MirrorCache, cache: MirrorCache, self: DomNode, v: View)
    requires ValidCache(cacheAtInsertion) && ValidCache(cache)
    ensures OnChildRemoved(self, Ensure(cache, v), Some(Inspector))
              == [ChildNodeRemoved(self.nodeId, Print(cacheAtInsertion, Ensure(cacheAtInsertion, v)).nodeId)]
    ensures OnChildRemoved(self, Ensure(cache, v), Some(Inspector))
              == [ChildNodeRemoved(self.nodeId, v.domId)]
  {
  }

  /** Setting a property and then resetting it to the unset marker yields
      one modification with the new value's text followed by one removal,
      and nothing else; without an inspector, nothing at all. */
  lemma SetThenUnset(fmt: Formatters, self: DomNode, name: string, value: Value, ins: Option<Inspector>)
    ensures OnAttributeModified(fmt, self, name, value, ins) + OnAttributeRemoved(self, name, ins)
              == if ins.Some?
                 then [AttributeModified(self.nodeId, name, ValueToString(fmt, value)), AttributeRemoved(self.nodeId, name)]
                 else []
  {
  }
}

=== FILE: projection.dfy ===
/** Projection of a view's set properties into the flat attribute list of
    its mirror node: name, text, name, text, ... */
module Projection {
  import opened Seqs
  import opened Values

  /** Derived box-model and bookkeeping properties that are never surfaced. */
  const Blacklist: seq<string> := [
    "effectivePaddingLeft",
    "effectivePaddingBottom",
    "effectivePaddingRight",
    "effectivePaddingTop",
    "effectiveBorderTopWidth",
    "effectiveBorderRightWidth",
    "effectiveBorderBottomWidth",
    "effectiveBorderLeftWidth",
    "effectiveMinWidth",
    "nodeName",
    "nodeType",
    "decodeWidth",
    "decodeHeight"
  ]

  /** Framework-private names start with an underscore; the empty name does not. */
  predicate IsInternalName(name: string) {
    |name| > 0 && name[0] == '_'
  }

  /** The three rules a set property must pass to become an attribute. */
  predicate Survives(p: (string, Value)) {
    && !IsInternalName(p.0)
    && !p.1.IsObject()
    && p.0 !in Blacklist
  }

  /** A flat attribute list of (name, text) pairs in which no name is
      framework-private or blacklisted. */
  predicate CleanAttributes(attrs: seq<string>) {
    && |attrs| % 2 == 0
    && forall i :: 0 <= i < |attrs| && i % 2 == 0 ==>
         !IsInternalName(attrs[i]) && attrs[i] !in Blacklist
  }

  /** Survivors turned into text, two entries per pair. */
  function Flatten(pairs: seq<(string, Value)>): (attrs: seq<string>)
    requires forall i :: 0 <= i < |pairs| ==> !pairs[i].1.IsObject()
    ensures |attrs| == 2 * |pairs|
    ensures forall i :: 0 <= i < |pairs| ==>
              attrs[2 * i] == pairs[i].0 && attrs[2 * i + 1] == ConcatEmpty(pairs[i].1)
  {
    if pairs == [] then []
    else
      var rest := Flatten(pairs[1..]);
      var attrs := [pairs[0].0, ConcatEmpty(pairs[0].1)] + rest;
      assert forall i :: 1 <= i < |pairs| ==>
               attrs[2 * i] == rest[2 * (i - 1)] && pairs[i] == pairs[1..][i - 1];
      attrs
  }

  /** The attribute list a mirror node is created with, from the view's set
      properties in the order the host reports them. */
  function Attributes(props: seq<(string, Value)>): (attrs: seq<string>)
    ensures |attrs| <= 2 * |props|
    ensures CleanAttributes(attrs)
  {
    var kept := Filter(props, Survives);
    var attrs := Flatten(kept);
    assert forall i :: 0 <= i < |attrs| && i % 2 == 0 ==> i == 2 * (i / 2) && i / 2 < |kept|;
    attrs
  }

  /** The `j`-th (name, text) pair of a flat attribute list. */
  function PairAt(attrs: seq<string>, j: nat): (pair: (string, string))
    requires 2 * j + 1 < |attrs|
  {
    (attrs[2 * j], attrs[2 * j + 1])
  }

  /** The attribute list is exactly the survivors, in host order: pair `j`
      is the `j`-th surviving property with its value concatenated to "". */
  lemma AttributesAreSurvivorsInOrder(props: seq<(string, Value)>)
    ensures |Attributes(props)| == 2 * |Filter(props, Survives)|
    ensures forall j :: 0 <= j < |Filter(props, Survives)| ==>
              PairAt(Attributes(props), j)
                == (Filter(props, Survives)[j].0, ConcatEmpty(Filter(props, Survives)[j].1))
  {
  }

  /** Every property that passes the filter is listed with its text. */
  lemma {:induction false} SurvivorIsListed(props: seq<(string, Value)>, p: (string, Value))
    requires p in props && Survives(p)
    ensures exists j :: 0 <= j < |Attributes(props)| / 2 && PairAt(Attributes(props), j) == (p.0, ConcatEmpty(p.1))
  {
    var kept := Filter(props, Survives);
    assert p in kept;
    var j :| 0 <= j < |kept| && kept[j] == p;
    AttributesAreSurvivorsInOrder(props);
    assert PairAt(Attributes(props), j) == (p.0, ConcatEmpty(p.1));
  }

  /** Every listed pair comes from a property that passes the filter. */
  lemma {:induction false} ListedIsSurvivor(props: seq<(string, Value)>, j: nat)
    requires j < |Attributes(props)| / 2
    ensures exists p :: p in props && Survives(p) && PairAt(Attributes(props), j) == (p.0, ConcatEmpty(p.1))
  {
    var kept := Filter(props, Survives);
    AttributesAreSurvivorsInOrder(props);
    assert kept[j] in kept;
    var p := kept[j];
    assert p in props && Survives(p);
  }

  /** No pair is duplicated or lost: a surviving property occurs among the
      survivors exactly as often as among the set properties, a rejected one
      never. */
  lemma SurvivorMultiplicity(props: seq<(string, Value)>, p: (string, Value))
    ensures multiset(Filter(props, Survives))[p] == if Survives(p) then multiset(props)[p] else 0
  {
    FilterCount(props, Survives, p);
  }

  /** Properties reported later by the host come later in the list. */
  lemma ProjectionOfConcatenation(a: seq<(string, Value)>, b: seq<(string, Value)>)
    ensures Attributes(a + b) == Attributes(a) + Attributes(b)
  {
    FilterAppend(a, b, Survives);
    FlattenAppend(Filter(a, Survives), Filter(b, Survives));
  }

  lemma {:induction false} FlattenAppend(a: seq<(string, Value)>, b: seq<(string, Value)>)
    requires forall i :: 0 <= i < |a| ==> !a[i].1.IsObject()
    requires forall i :: 0 <= i < |b| ==> !b[i].1.IsObject()
    ensures Flatten(a + b) == Flatten(a) + Flatten(b)
    decreases |a|
  {
    if a == [] {
      assert a + b == b;
    } else {
      assert (a + b)[0] == a[0];
      assert (a + b)[1..] == a[1..] + b;
      FlattenAppend(a[1..], b);
    }
  }

  /** Names of the host's properties never repeat, so no attribute name repeats. */
  predicate DistinctNames(props: seq<(string, Value)>) {
    forall i, j :: 0 <= i < j < |props| ==> props[i].0 != props[j].0
  }

  lemma {:induction false} FilterKeepsDistinctNames(props: seq<(string, Value)>)
    requires DistinctNames(props)
    ensures DistinctNames(Filter(props, Survives))
    decreases |props|
  {
    if props != [] {
      FilterKeepsDistinctNames(props[1..]);
      var rest := Filter(props[1..], Survives);
      forall q | q in rest
        ensures q.0 != props[0].0
      {
        assert q in props[1..];
        var k :| 0 <= k < |props[1..]| && props[1..][k] == q;
        assert props[k + 1] == q;
      }
    }
  }

  lemma AttributeNamesAreDistinct(props: seq<(string, Value)>)
    requires DistinctNames(props)
    ensures forall i, j :: 0 <= i < j < |Attributes(props)| / 2 ==>
              PairAt(Attributes(props), i).0 != PairAt(Attributes(props), j).0
  {
    FilterKeepsDistinctNames(props);
    AttributesAreSurvivorsInOrder(props);
  }
}

=== FILE: seqs.dfy ===
/** Order-preserving filtering of sequences, the shape shared by the
    attribute projection and the computed-property listing. */
module Seqs {

  /** The elements of `s` that satisfy `keep`, in their original order. */
  function Filter<T(==)>(s: seq<T>, keep: T -> bool): (r: seq<T>)
    ensures |r| <= |s|
    ensures forall i :: 0 <= i < |r| ==> keep(r[i])
    ensures forall x :: x in r ==> x in s
    ensures forall x :: x in s && keep(x) ==> x in r
  {
    if s == [] then []
    else if keep(s[0]) then [s[0]] + Filter(s[1..], keep)
    else Filter(s[1..], keep)
  }

  /** Filtering a concatenation filters each part and keeps them in order:
      together with the one-element case this pins down the relative order
      of the survivors. */
  lemma {:induction false} FilterAppend<T>(a: seq<T>, b: seq<T>, keep: T -> bool)
    ensures Filter(a + b, keep) == Filter(a, keep) + Filter(b, keep)
    decreases |a|
  {
    if a == [] {
      assert a + b == b;
    } else {
      assert (a + b)[0] == a[0];
      assert (a + b)[1..] == a[1..] + b;
      FilterAppend(a[1..], b, keep);
    }
  }

  /** Every kept element occurs in the result exactly as often as in the
      input, and a rejected element does not occur at all. */
  lemma {:induction false} FilterCount<T>(s: seq<T>, keep: T -> bool, x: T)
    ensures multiset(Filter(s, keep))[x] == if keep(x) then multiset(s)[x] else 0
    decreases |s|
  {
    if s != [] {
      assert s == [s[0]] + s[1..];
      assert multiset(s) == multiset([s[0]]) + multiset(s[1..]);
      FilterCount(s[1..], keep, x);
    }
  }
}

=== FILE: values.dfy ===
/** Decimal text of integers, the form JavaScript gives an integral number
    when it is concatenated with a string. */
module NumberText {
  import opened Wrappers

  predicate IsDigit(c: char) { '0' <= c <= '9' }

  function DigitChar(d: int): (c: char)
    requires 0 <= d < 10
    ensures IsDigit(c) && c as int - '0' as int == d
  {
    "0123456789"[d]
  }

  function DigitValue(c: char): (d: nat)
    requires IsDigit(c)
    ensures d < 10
  {
    c as int - '0' as int
  }

  predicate AllDigits(s: string) {
    forall i :: 0 <= i < |s| ==> IsDigit(s[i])
  }

  /** Shortest decimal text of a natural number: no leading zero except "0" itself. */
  function NatText(n: nat): (s: string)
    ensures |s| >= 1
    ensures AllDigits(s)
    ensures s[0] == '0' ==> n == 0 && s == "0"
    decreases n
  {
    if n < 10 then [DigitChar(n)] else NatText(n / 10) + [DigitChar(n % 10)]
  }

  /** Text of an integral number: a minus sign before the magnitude when negative. */
  function IntText(n: int): (s: string) {
    if n < 0 then "-" + NatText(-n) else NatText(n)
  }

  /** The number a string of digits denotes. */
  function DigitsValue(s: string): (n: nat)
    requires AllDigits(s)
  {
    if s == [] then 0 else DigitsValue(s[..|s| - 1]) * 10 + DigitValue(s[|s| - 1])
  }

  /** Reads back the text `IntText` produces; anything else is `None`. */
  function ParseInt(s: string): (r: Option<int>)
    ensures r.Some? ==> |s| >= 1
  {
    if |s| >= 2 && s[0] == '-' && AllDigits(s[1..]) then Some(-(DigitsValue(s[1..]) as int))
    else if |s| >= 1 && AllDigits(s) then Some(DigitsValue(s))
    else None
  }

  lemma {:induction false} NatTextValue(n: nat)
    ensures DigitsValue(NatText(n)) == n
    decreases n
  {
    if n >= 10 {
      var s := NatText(n);
      assert s[..|s| - 1] == NatText(n / 10);
      NatTextValue(n / 10);
    }
  }

  /** Decimal text is a faithful encoding: parsing it gives the number back. */
  lemma IntTextRoundTrip(n: int)
    ensures ParseInt(IntText(n)) == Some(n)
  {
    var s := IntText(n);
    if n < 0 {
      NegativeTextRoundTrip(n);
    } else {
      assert s == NatText(n);
      assert AllDigits(s);
      assert IsDigit(s[0]);
      NatTextValue(n);
      assert ParseInt(s) == Some(DigitsValue(s));
    }
  }

  lemma NegativeTextRoundTrip(n: int)
    requires n < 0
    ensures ParseInt(IntText(n)) == Some(n)
  {
    var m: nat := -n;
    var t := NatText(m);
    assert IntText(n) == "-" + t;
    ParseMinusDigits(t);
    NatTextValue(m);
    assert DigitsValue(t) == m;
  }

  /** A minus sign followed by digits reads as the negated digit value. */
  lemma ParseMinusDigits(t: string)
    requires |t| >= 1 && AllDigits(t)
    ensures ParseInt("-" + t) == Some(-(DigitsValue(t) as int))
  {
    var s := "-" + t;
    assert s[0] == '-';
    assert s[1..] == t;
  }

  /** Hence distinct numbers never print the same. */
  lemma IntTextInjective(m: int, n: int)
    ensures IntText(m) == IntText(n) ==> m == n
  {
    IntTextRoundTrip(m);
    IntTextRoundTrip(n);
  }
}

/** The closed set of property values a view can hold, and the two ways the
    mirroring layer turns one into text. */
module Values {
  import opened Wrappers
  import opened NumberText

  /** A host Color instance; only the formatter passed in looks inside it. */
  datatype Color = Color(argb: int)

  /** Any other object-shaped host value (a length or percentage, an array, a
      nested record), known to the model only by identity. */
  datatype HostObject = HostObject(handle: nat)

  /** The integers a JavaScript number holds exactly, each of which prints as
      its exact decimal; larger magnitudes print rounded digits. */
  const MAX_SAFE_INTEGER: int := 9007199254740991
  type SafeInteger = n: int | -MAX_SAFE_INTEGER <= n <= MAX_SAFE_INTEGER

  datatype Value =
    | Undefined
    | Null
    | Str(s: string)
    | Num(n: SafeInteger)
    | Bool(b: bool)
    | ColorV(color: Color)
    | ObjectV(obj: HostObject)
  {
    /** A non-null value whose JavaScript `typeof` is "object". */
    predicate IsObject() { ColorV? || ObjectV? }

    predicate IsAbsent() { Undefined? || Null? }
  }

  /** The host's own renderings of composite values: `Color.toString` and
      `PercentLength.convertToString`. They are inputs of the model. */
  datatype Formatters = Formatters(colorText: Color -> string, lengthText: HostObject -> string)

  /** `value + ""` for a value that is not an object: JavaScript's default
      string conversion, which spells out null and undefined. */
  function ConcatEmpty(v: Value): (s: string)
    requires !v.IsObject()
    ensures v.Undefined? ==> s == "undefined"
    ensures v.Null? ==> s == "null"
    ensures v.Str? ==> s == v.s
    ensures v.Num? ==> ParseInt(s) == Some(v.n)
    ensures v.Bool? ==> (s == "true" <==> v.b) && (s == "false" <==> !v.b)
  {
    match v
    case Undefined => "undefined"
    case Null => "null"
    case Str(t) => t
    case Num(n) => IntTextRoundTrip(n); IntText(n)
    case Bool(b) => if b then "true" else "false"
  }

  /** The value codec of the inspector protocol: absent values become the
      empty string, composites go through the host formatters, and every
      other value is converted as by `value + ""`. */
  function ValueToString(fmt: Formatters, v: Value): (s: string)
    ensures v.IsAbsent() ==> s == ""
    ensures !v.IsAbsent() && !v.IsObject() ==> s == ConcatEmpty(v)
    ensures v.ColorV? ==> s == fmt.colorText(v.color)
    ensures v.ObjectV? ==> s == fmt.lengthText(v.obj)
  {
    if v.IsAbsent() then ""
    else if v.ColorV? then fmt.colorText(v.color)
    else if v.IsObject() then fmt.lengthText(v.obj)
    else ConcatEmpty(v)
  }

  /** On plain values the codec and string concatenation agree exactly when
      the value is present: null and undefined are the only disagreement. */
  lemma CodecAgreesWithConcatUnlessAbsent(fmt: Formatters, v: Value)
    requires !v.IsObject()
    ensures ValueToString(fmt, v) == ConcatEmpty(v) <==> !v.IsAbsent()
    ensures v.IsAbsent() ==> ValueToString(fmt, v) == ""
  {
  }

  /** Falsy plain values keep a faithful text under concatenation. */
  lemma FalsyConcatenations()
    ensures ConcatEmpty(Null) == "null"
    ensures ConcatEmpty(Undefined) == "undefined"
    ensures ConcatEmpty(Num(0)) == "0"
    ensures ConcatEmpty(Str("")) == ""
    ensures ConcatEmpty(Bool(false)) == "false"
  {
    assert NatText(0) == "0";
  }

  /** The text of a number reads back as that number, under both conversions. */
  lemma NumberTextRoundTrip(fmt: Formatters, n: SafeInteger)
    ensures ParseInt(ConcatEmpty(Num(n))) == Some(n)
    ensures ParseInt(ValueToString(fmt, Num(n))) == Some(n)
  {
    IntTextRoundTrip(n);
  }
}

=== FILE: wrappers.dfy ===
/** The optional-value datatype used wherever the mirroring layer may find
    nothing: an absent inspector, a missing predecessor, an unparsable text. */
module Wrappers {

  datatype Option<+T> = None | Some(value: T)
}
